=== FILE: README.md ===
# Motion Mosaic — a Dafny model of the frame step

Motion Mosaic is a p5.js sketch (`sketch.js`). It plays a video on a canvas
and shows only what moves. Each `draw()` tick does the following:

- it clears the canvas to a dark grey;
- it cuts the frame into a row-major grid of `blockSize` squares, clipped at
  the right and bottom edges;
- it marks a block as moving when any one of its pixels has a mean absolute
  R/G/B change above `sensitivity * 255` against the previous frame;
- it paints each moving block with the mean colour of its pixels, or with the
  BT.601 luma of that mean in black-and-white mode;
- it copies the frame into the previous-frame buffer `prevPixels`.

Around that step sit a few more pieces:

- a downscale that fits the canvas into 1280 x 720;
- a small session state machine: loading, playing or paused, colour mode,
  the sliders, and reset.

The model is split into modules:

- `Pixels`: flat RGBA byte buffers.
- `Grid`: block geometry and the partition of the frame.
- `Config`: the `settings` record.
- `Mosaic`: the frame step as pure functions over exact reals.
- `MosaicDraw`: the nested loops of `draw()` as methods. They are proved to
  compute `Mosaic.FrameStep`.
- `Seqs`: joining a sequence of sequences, the shape of the fills the
  nested loops append.
- `MosaicProps`: what the step means. This covers the motion flag, the fills,
  the rendered canvas, sensitivity and colour ranges.
- `Resize`: the 720p downscale.
- `Session`: the global state, the events that change it, and the invariant
  they keep.

Two behaviours of the previous-frame buffer are worth stating plainly:

- A null `prevPixels` stays null. Line 323 of `sketch.js` copies the frame
  only into an existing buffer. `MosaicProps.ColdStart` and
  `Session.DrawUpdatesBuffer` state this.
- The `loadedmetadata` handler allocates a zero-filled `prevPixels` (line
  198), so the first frame of a new video is compared against black
  (`Session.FirstFrameAgainstBlack`). The null branch is reached only when
  `resetApp` has run and a `play()` promise resolves before new metadata
  arrives (`Session.ColdStartAfterReset`).

## Model

| member | source | states |
|---|---|---|
| `Pixels.Zeros` | sketch.js:198 | a new buffer of length n whose samples are all 0 |
| `Pixels.OffsetInBounds` | sketch.js:272-277 | for an in-bounds pixel, all four samples at `(py*width+px)*4` lie inside a width x height RGBA buffer |
| `Grid.VisitedOrigin` | sketch.js:260-261 | the loop `v = 0; v < n; v += bs` visits origin k*bs exactly when k < ceil(n/bs) |
| `Grid.BlockInBounds` | sketch.js:268-269 | each grid block is non-empty, lies inside the frame and has at most bs x bs pixels; it is narrower or shorter than bs only where it meets the right or bottom edge |
| `Grid.Partition` | sketch.js:260-271 | each in-bounds pixel is scanned in block (px/bs, py/bs) and in no other block |
| `Mosaic.ScanOf` | sketch.js:263-297 | the pixel count of a block scan, one per in-bounds pixel, is the area w*h of the clipped block |
| `MosaicDraw.ScanRow` | sketch.js:269-296 | the inner pixel loop ORs the motion test into the flag, adds R, G and B to the totals, and counts min(bs, width-x) pixels |
| `MosaicDraw.ScanBlock` | sketch.js:263-297 | the two scan loops leave the flag "some pixel of the clipped block moves" (false without a previous buffer), the channel sums over the block, and its w*h pixel count |
| `Mosaic.ScanCountPositive` | sketch.js:263-300 | every grid block scans at least one pixel, so the `pixelCount > 0` guard never fails |
| `MosaicDraw.DrawBlock` | sketch.js:262-316 | the block loop body draws block (i, j) exactly when it moves, and then with that block's own fill: its mean colour or the luma of its mean over the clipped footprint |
| `MosaicDraw.DrawRow` | sketch.js:261-318 | one grid row yields the fills of its moving blocks, left to right |
| `Mosaic.FrameStep` | sketch.js:252-325 | one frame clears to the mode's background, and afterwards `prevPixels` is present exactly when it was before, then holding the current frame at the canvas size; its fills are characterised by `MosaicProps.FillsAreMotionBlocks` and `MosaicProps.Rendered` |
| `MosaicDraw.DrawFrame` | sketch.js:252-325 | the loops of `draw()` produce exactly the functional frame step: background, fills in row-major order, and the new `prevPixels` |
| `MosaicProps.RowMotionExists` | sketch.js:269-288 | the flag after a row segment is true iff some pixel of the segment moves |
| `MosaicProps.RectMotionExists` | sketch.js:263-297 | the accumulated flag is true iff some scanned pixel of the block moves |
| `MosaicProps.BlockMovesIff` | sketch.js:253-288 | a block is marked iff `prevPixels` is present and some in-bounds pixel of it has (abs dR + abs dG + abs dB)/3 > sensitivity*255 |
| `MosaicProps.SingleOutlier` | sketch.js:286-287 | one moving pixel is enough to mark the block that contains it |
| `MosaicProps.MonotoneInSensitivity` | sketch.js:253-288 | raising the sensitivity at a fixed block size never adds a motion block |
| `MosaicProps.IntegerThreshold` | sketch.js:253-286 | with sensitivity k/100, the test holds iff 100*(abs dR + abs dG + abs dB) > 765*k |
| `MosaicProps.FillsAreMotionBlocks` | sketch.js:260-319 | a fill is in the frame's output iff it is the fill of some moving grid block |
| `MosaicProps.NoMotionNoFills` | sketch.js:300-316 | no moving block means no fill |
| `MosaicProps.ColdStart` | sketch.js:280-325 | with `prevPixels` null, nothing is detected, only the background is drawn, and `prevPixels` stays null |
| `MosaicProps.IdenticalFrames` | sketch.js:257-300 | frames equal on R, G and B mark no block, so the output is the background alone |
| `MosaicProps.Rendered` | sketch.js:257-316 | a canvas pixel in block (i, j) shows that block's fill colour if the block moved, and the background otherwise |
| `MosaicProps.IdenticalFramesShowBackground` | sketch.js:257 | with identical frames every pixel shows grey 20 in colour mode and 40 in grey mode |
| `MosaicProps.UniformBlockFill` | sketch.js:292-312 | a block of uniform colour (r, g, b) is filled with exactly (r, g, b), or in grey mode with 0.299r + 0.587g + 0.114b |
| `MosaicProps.FillColourInRange` | sketch.js:302-311 | every fill component, and the luma, is a mean of bytes and lies in 0..255 |
| `Resize.Scale` | sketch.js:186 | the factor min(1280/w, 720/h) is in (0, 1) for an oversized video and brings both sides within the limits |
| `Resize.Downscale` | sketch.js:181-190 | a video within 1280 x 720 keeps its size; otherwise the floored scaled size is at most 1280 x 720 and no larger than the video |
| `Resize.BindingSide` | sketch.js:185-188 | in exact arithmetic, an oversized video ends exactly 1280 wide or exactly 720 high |
| `Resize.AspectKept` | sketch.js:186-188 | flooring keeps the aspect ratio to within one pixel: -h < w'*h - h'*w < w |
| `Session.OpenVideo` | sketch.js:150-175 | an accepted file sets up a video element and a rejected one changes nothing; `prevPixels`, the loaded flag, the settings and the canvas size are left as they were |
| `Session.MetadataLoaded` | sketch.js:177-198 | the canvas takes the downscaled video size, at most 1280 x 720, and `prevPixels` is an all-zero buffer of that size; settings and the video flags are unchanged; with no video element nothing changes |
| `Session.PlayStarted` | sketch.js:206-208 | when the play promise resolves, the video counts as loaded and playing; the other settings, `prevPixels`, the video element and the canvas size are unchanged, and the state stays valid |
| `Session.Draw` | sketch.js:231-325 | a tick draws iff it is not gated by "not loaded, no video, or paused"; it changes only `prevPixels` and keeps the state valid |
| `Session.ToggleColorMode` | sketch.js:346-347 | flips `isColorMode`, leaves every other field of the state as it was, and keeps the state valid |
| `Session.TogglePlayPause` | sketch.js:365-368 | returns at once without a video element; otherwise flips `isPlaying` and changes no other field |
| `Session.ToggleColorModeTwice` | sketch.js:347 | toggling the colour mode twice is the identity |
| `Session.TogglePlayPauseSpec` | sketch.js:365-368 | toggling play/pause twice is the identity, and a toggle keeps the state valid |
| `Session.Reset` | sketch.js:398-420 | the reset state has no video, is not loaded, keeps the canvas size, and is valid |
| `Session.ResetForgets` | sketch.js:398-420 | reset forgets everything but the canvas size: two states of the same size reset alike, with null `prevPixels` and default settings, and the next tick draws nothing |
| `Session.SetBlockSize` | sketch.js:104-107 | the block-size slider sets `blockSize` to the slider value and changes nothing else |
| `Session.SetSensitivity` | sketch.js:109-113 | the sensitivity slider sets `sensitivity` to the slider value / 100 and changes nothing else |
| `Session.SlidersKeepValid` | sketch.js:104-113 | slider values in 5..50 and 10..90 keep the state valid, and so does the setup state |
| `Session.DrawRendered` | sketch.js:231-316 | on a drawn tick, a canvas pixel of block (i, j) shows that block's fill colour if the block moved against `prevPixels`, and the background otherwise |
| `Session.DrawUpdatesBuffer` | sketch.js:323-325 | after a drawn tick a present `prevPixels` equals the current frame, and a null one stays null |
| `Session.ColdStartAfterReset` | sketch.js:206-240 | the play promise resolving after a reset and a new file gives a tick that draws only the background and keeps `prevPixels` null |
| `Session.FirstFrameAgainstBlack` | sketch.js:198-288 | on the first tick after the metadata, a block moves iff one of its pixels has (R+G+B)/3 above the threshold |

## Left out

- DOM caching, event wiring, drag and drop, alerts and button labels (sketch.js:66-146, 222-226, 349-361, 370-395, 412-430). They are UI glue. The MP4/WebM type check is kept only as the `accepted` flag of `Session.OpenVideo`.
- The video element's lifecycle and the p5 calls `createCanvas`, `resizeCanvas`, `createGraphics`, `image`, `loadPixels`, `video.play()` and `video.pause()`. These are host calls. A decoded frame is an input of `Session.Draw`. The model takes it at the canvas size, because the sketch draws the video scaled into a graphics buffer of that size; the one exception is noted under `Session.MetadataLoaded` below. The `play()` promise becomes the `Session.PlayStarted` event. Its rejection path only updates the status text.
- FPS bookkeeping (sketch.js:330-341). It reads the wall clock and only updates the display.
- `main.js` and `server.py` in full. They are network, file and OpenCV plumbing, outside the sketch.
- IEEE-754 rounding of the threshold, the means, the luma, and the downscale's scale factor and scaled sides before flooring (sketch.js:186-188), and p5's quantisation of `fill()` colours. All arithmetic is exact `real`.
- The canvas clipping of `rect(x, y, blockSize, blockSize)` (sketch.js:315) is modelled directly as the clipped in-bounds footprint of the block.
- The slider ranges 5..50 and 10..90 come from the page markup, which is not part of this model. `Session.SlidersKeepValid` takes them as preconditions. `SetBlockSize` and `SetSensitivity` accept any value, as the handlers do.
- Resize.BindingSide: holds in exact arithmetic only. In doubles the scaled side can floor one pixel short: `Math.floor(2139 * (1280 / 2139))` is 1279, so a 2139 x 1080 video ends 1279 x 646. The bounds of `Resize.Downscale` hold in doubles too.
- Resize.AspectKept: stated only for videos with both sides positive, because a zero side makes the aspect ratio meaningless.
- Session.MetadataLoaded: the `loadedmetadata` handler is modelled as one atomic event. In p5 1.x, `resizeCanvas(w, h)` at sketch.js:193 redraws at once, so `draw()` can run before lines 194-198 replace `processGraphics` and `prevPixels`. When a second file is opened while a video plays, that one tick walks the new canvas size over buffers of the old size. The p5 library is not part of this model, so that intermediate tick is not modelled.
- Mosaic.FrameStep: a frame of a different size from `prevPixels` is excluded by a precondition. `Session.Valid` shows that no reachable state of this model produces one.

=== FILE: arith.dfy ===
/** Monotonicity of multiplication, which the solver does not always find unaided. */
module Arith {

  lemma MulLe(a: nat, b: nat, c: nat)
    requires a <= b
    ensures a * c <= b * c
  {
  }

  /** Adding one more row of w items of weight k. */
  lemma AddRow(w: nat, rows: nat, k: int)
    requires rows > 0
    ensures (w * (rows - 1)) * k + w * k == (w * rows) * k
  {
    assert w * (rows - 1) == w * rows - w;
    assert (w * rows - w) * k == (w * rows) * k - w * k;
  }

  /** One more copy of n. */
  lemma MulSucc(k: nat, n: nat)
    ensures (k + 1) * n == k * n + n
  {
  }
}

=== FILE: config.dfy ===
/** The sketch's global `settings` record. */
module Config {

  datatype Settings = Settings(
    blockSize: nat,     // side of a mosaic block in pixels
    sensitivity: real,  // fraction of 255 a pixel's mean channel change must exceed
    isColorMode: bool,  // true: mean colour fill; false: grey (luma) fill
    isPlaying: bool)    // false: draw() keeps the last rendered frame

  /** The values the sketch starts with and `resetApp` restores. */
  const Defaults := Settings(10, 0.3, true, true)

  /** The ranges the sliders produce: block size 5..50, sensitivity 0.10..0.90. */
  predicate InRange(s: Settings) {
    5 <= s.blockSize <= 50 && 0.1 <= s.sensitivity <= 0.9
  }

  /** The difference threshold on the 0..255 scale. */
  function Threshold(s: Settings): real {
    s.sensitivity * 255.0
  }
}

=== FILE: grid.dfy ===
/** The block grid that `draw()` walks: origins 0, bs, 2*bs, ... along each axis,
    with the last block of each row and column clipped to the frame. */
module Grid {

  import opened Arith

  /** Number of origins the loop `for (v = 0; v < n; v += bs)` visits, i.e. ceil(n / bs). */
  function BlockCount(n: nat, bs: nat): nat
    requires bs > 0
  {
    (n + bs - 1) / bs
  }

  /** The loop visits origin k*bs exactly when k is below the block count. */
  lemma VisitedOrigin(n: nat, bs: nat, k: nat)
    requires bs > 0
    ensures k * bs < n <==> k < BlockCount(n, bs)
  {
    var q, r := (n + bs - 1) / bs, (n + bs - 1) % bs;
    assert n + bs - 1 == q * bs + r;
    if k < q {
      assert k * bs <= (q - 1) * bs by { MulLe(k, q - 1, bs); }
      assert (q - 1) * bs == q * bs - bs;
    } else {
      assert q * bs <= k * bs by { MulLe(q, k, bs); }
    }
  }

  /** A position inside [k*bs, k*bs + bs) lies in block k. */
  lemma DivUnique(p: nat, bs: nat, k: nat)
    requires bs > 0 && k * bs <= p < k * bs + bs
    ensures p / bs == k
  {
    var q, r := p / bs, p % bs;
    assert p == q * bs + r;
    if q < k {
      assert (q + 1) * bs <= k * bs by { MulLe(q + 1, k, bs); }
    } else if q > k {
      assert (k + 1) * bs <= q * bs by { MulLe(k + 1, q, bs); }
    }
  }

  /** Pixels scanned along one axis from `origin`: the loop
      `for (d = 0; d < bs && origin + d < n; d++)` runs min(bs, n - origin) times. */
  function Extent(n: nat, bs: nat, origin: nat): nat {
    if origin >= n then 0 else if n - origin < bs then n - origin else bs
  }

  /** The clipped in-bounds footprint of one block. */
  datatype Block = Block(x: nat, y: nat, w: nat, h: nat)

  /** Block (i, j) of the grid: column i, row j. */
  function BlockAt(width: nat, height: nat, bs: nat, i: nat, j: nat): Block {
    Block(i * bs, j * bs, Extent(width, bs, i * bs), Extent(height, bs, j * bs))
  }

  predicate Covers(b: Block, px: nat, py: nat) {
    b.x <= px < b.x + b.w && b.y <= py < b.y + b.h
  }

  /** Every grid block lies inside the frame and is non-empty; a block is narrower
      (or shorter) than bs only where it meets the right (or bottom) edge. */
  lemma BlockInBounds(width: nat, height: nat, bs: nat, i: nat, j: nat)
    requires bs > 0 && i < BlockCount(width, bs) && j < BlockCount(height, bs)
    ensures var b := BlockAt(width, height, bs, i, j);
      && 1 <= b.w <= bs && 1 <= b.h <= bs
      && b.x + b.w <= width && b.y + b.h <= height
      && (b.w == bs || b.x + b.w == width)
      && (b.h == bs || b.y + b.h == height)
      && 1 <= b.w * b.h <= bs * bs
  {
    VisitedOrigin(width, bs, i);
    VisitedOrigin(height, bs, j);
    var b := BlockAt(width, height, bs, i, j);
    MulLe(b.w, bs, b.h);
    MulLe(b.h, bs, bs);
    assert b.w * b.h <= bs * b.h;
    assert b.h * bs == bs * b.h;
    MulLe(1, b.w, b.h);
  }

  /** Grid partition: every in-bounds pixel lies in the block (px / bs, py / bs),
      and in no other block of the grid. */
  lemma Partition(width: nat, height: nat, bs: nat, px: nat, py: nat)
    requires bs > 0 && px < width && py < height
    ensures px / bs < BlockCount(width, bs) && py / bs < BlockCount(height, bs)
    ensures Covers(BlockAt(width, height, bs, px / bs, py / bs), px, py)
    ensures forall i: nat, j: nat ::
      Covers(BlockAt(width, height, bs, i, j), px, py) ==> i == px / bs && j == py / bs
  {
    AxisPartition(width, bs, px);
    AxisPartition(height, bs, py);
    forall i: nat, j: nat | Covers(BlockAt(width, height, bs, i, j), px, py)
      ensures i == px / bs && j == py / bs
    {
      assert i * bs <= px < i * bs + bs;
      DivUnique(px, bs, i);
      DivUnique(py, bs, j);
    }
  }

  /** One axis of the partition. */
  lemma AxisPartition(n: nat, bs: nat, p: nat)
    requires bs > 0 && p < n
    ensures p / bs < BlockCount(n, bs)
    ensures var o := (p / bs) * bs; o <= p < o + Extent(n, bs, o)
  {
    var k := p / bs;
    assert k * bs <= p;
    VisitedOrigin(n, bs, k);
  }
}

=== FILE: mosaic.dfy ===
/** The motion-mosaic frame step of `draw()`, stated as pure functions: the
    per-pixel motion test, the per-block scan (OR-accumulated motion flag and
    channel totals), the fill of each moving block, and the rendered result. */
module Mosaic {

  import opened Pixels
  import opened Grid
  import opened Config
  import opened Arith

  function Abs(x: int): nat {
    if x < 0 then -x else x
  }

  /** The inputs `draw()` works on: the current frame, the previous buffer
      (absent when `prevPixels` is null) of the same size, and a block size
      that makes the grid loops advance. */
  predicate FrameInput(img: Image, prev: Option<Buffer>, bs: nat) {
    && img.Valid()
    && (prev.Some? ==> Sized(prev.value, img.width, img.height))
    && bs > 0
  }

  /** Both buffers hold the frame's pixels. */
  predicate Comparable(img: Image, prev: Buffer) {
    img.Valid() && Sized(prev, img.width, img.height)
  }

  /** |dR| + |dG| + |dB| of pixel (px, py). */
  function PixelDiff(img: Image, prev: Buffer, px: nat, py: nat): nat
    requires Comparable(img, prev) && px < img.width && py < img.height
  {
    var w, h := img.width, img.height;
    Abs(Sample(img.data, w, h, px, py, 0) - Sample(prev, w, h, px, py, 0))
    + Abs(Sample(img.data, w, h, px, py, 1) - Sample(prev, w, h, px, py, 1))
    + Abs(Sample(img.data, w, h, px, py, 2) - Sample(prev, w, h, px, py, 2))
  }

  /** The per-pixel motion test: the mean absolute channel difference is
      strictly above the threshold. */
  predicate PixelMoves(img: Image, prev: Buffer, px: nat, py: nat, threshold: real)
    requires Comparable(img, prev) && px < img.width && py < img.height
  {
    PixelDiff(img, prev, px, py) as real / 3.0 > threshold
  }

  /** Some pixel among the first n of row py, starting at column x, moves. */
  predicate RowMotion(img: Image, prev: Buffer, x: nat, py: nat, n: nat, threshold: real)
    requires Comparable(img, prev) && x + n <= img.width && py < img.height
    decreases n
  {
    n > 0 && (RowMotion(img, prev, x, py, n - 1, threshold)
              || PixelMoves(img, prev, x + n - 1, py, threshold))
  }

  /** Some pixel in the first `rows` rows of block b moves: the flag the scan
      has accumulated after those rows. */
  predicate RectMotion(img: Image, prev: Buffer, b: Block, rows: nat, threshold: real)
    requires Comparable(img, prev) && b.x + b.w <= img.width && b.y + rows <= img.height
    decreases rows
  {
    rows > 0 && (RectMotion(img, prev, b, rows - 1, threshold)
                 || RowMotion(img, prev, b.x, b.y + rows - 1, b.w, threshold))
  }

  /** Sum of channel c over the first n pixels of row py, starting at column x. */
  function RowSum(img: Image, x: nat, py: nat, n: nat, c: nat): int
    requires img.Valid() && x + n <= img.width && py < img.height && c < 3
    decreases n
  {
    if n == 0 then 0
    else RowSum(img, x, py, n - 1, c) + Sample(img.data, img.width, img.height, x + n - 1, py, c)
  }

  /** Sum of channel c over the first `rows` rows of block b. */
  function RectSum(img: Image, b: Block, rows: nat, c: nat): int
    requires img.Valid() && b.x + b.w <= img.width && b.y + rows <= img.height && c < 3
    decreases rows
  {
    if rows == 0 then 0
    else RectSum(img, b, rows - 1, c) + RowSum(img, b.x, b.y + rows - 1, b.w, c)
  }

  /** Pixels counted over the first `rows` rows of block b. */
  function RectCount(b: Block, rows: nat): nat
    decreases rows
  {
    if rows == 0 then 0 else RectCount(b, rows - 1) + b.w
  }

  /** The count is the area of the scanned rectangle. */
  lemma {:induction false} RectCountArea(b: Block, rows: nat)
    ensures RectCount(b, rows) == b.w * rows
  {
    if rows > 0 {
      RectCountArea(b, rows - 1);
      MulSucc(rows - 1, b.w);
    }
  }

  /** What the scan of one block leaves in `motionDetected`, `totalR`,
      `totalG`, `totalB` and `pixelCount`. */
  datatype Scan = Scan(motion: bool, totalR: int, totalG: int, totalB: int, count: nat)

  predicate InFrame(img: Image, b: Block) {
    b.x + b.w <= img.width && b.y + b.h <= img.height
  }

  /** The scan of block b: without a previous buffer no pixel is compared. */
  function ScanOf(img: Image, prev: Option<Buffer>, b: Block, threshold: real): (s: Scan)
    requires img.Valid() && (prev.Some? ==> Sized(prev.value, img.width, img.height))
    requires InFrame(img, b)
    ensures s.count == b.w * b.h
  {
    RectCountArea(b, b.h);
    Scan(prev.Some? && RectMotion(img, prev.value, b, b.h, threshold),
         RectSum(img, b, b.h, 0), RectSum(img, b, b.h, 1), RectSum(img, b, b.h, 2),
         RectCount(b, b.h))
  }

  /** A fill colour: `fill(r, g, b)` in colour mode, `fill(v)` in grey mode. */
  datatype Colour = Rgb(r: real, g: real, b: real) | Grey(v: real)

  /** The grey level of an RGB colour (ITU-R BT.601 luma weights). */
  function Luma(r: real, g: real, b: real): real {
    0.299 * r + 0.587 * g + 0.114 * b
  }

  /** The colour of a moving block: the mean R, G, B over its scanned pixels,
      or the luma of that mean in grey mode. */
  function BlockColour(s: Scan, isColorMode: bool): Colour
    requires s.count > 0
  {
    var n := s.count as real;
    var r, g, b := s.totalR as real / n, s.totalG as real / n, s.totalB as real / n;
    if isColorMode then Rgb(r, g, b) else Grey(Luma(r, g, b))
  }

  /** One `rect` drawn with `noStroke()`, as the part of it inside the canvas. */
  datatype Fill = Fill(block: Block, colour: Colour)

  /** Block (i, j) of the frame's grid. */
  function GridBlock(img: Image, bs: nat, i: nat, j: nat): Block {
    BlockAt(img.width, img.height, bs, i, j)
  }

  function Columns(img: Image, bs: nat): nat requires bs > 0 {
    BlockCount(img.width, bs)
  }

  function Rows(img: Image, bs: nat): nat requires bs > 0 {
    BlockCount(img.height, bs)
  }

  /** The motion flag of block (i, j) at the given settings. */
  predicate BlockMoves(img: Image, prev: Option<Buffer>, settings: Settings, i: nat, j: nat)
    requires FrameInput(img, prev, settings.blockSize)
    requires i < Columns(img, settings.blockSize) && j < Rows(img, settings.blockSize)
  {
    var b := GridBlock(img, settings.blockSize, i, j);
    BlockInBounds(img.width, img.height, settings.blockSize, i, j);
    ScanOf(img, prev, b, Threshold(settings)).motion
  }

  /** The fill block (i, j) receives when it moves. */
  function FillFor(img: Image, prev: Option<Buffer>, settings: Settings, i: nat, j: nat): Fill
    requires FrameInput(img, prev, settings.blockSize)
    requires i < Columns(img, settings.blockSize) && j < Rows(img, settings.blockSize)
  {
    var b := GridBlock(img, settings.blockSize, i, j);
    BlockInBounds(img.width, img.height, settings.blockSize, i, j);
    Fill(b, BlockColour(ScanOf(img, prev, b, Threshold(settings)), settings.isColorMode))
  }

  /** Every grid block scans at least one pixel, so the `pixelCount > 0`
      guard on the fill never fails. */
  lemma ScanCountPositive(img: Image, prev: Option<Buffer>, settings: Settings, i: nat, j: nat)
    requires FrameInput(img, prev, settings.blockSize)
    requires i < Columns(img, settings.blockSize) && j < Rows(img, settings.blockSize)
    ensures var b := GridBlock(img, settings.blockSize, i, j);
      && InFrame(img, b)
      && ScanOf(img, prev, b, Threshold(settings)).count > 0
  {
    BlockInBounds(img.width, img.height, settings.blockSize, i, j);
  }

  /** The fills block (i, j) contributes: its own fill if it moves, else none. */
  function BlockFill(img: Image, prev: Option<Buffer>, settings: Settings, i: nat, j: nat): seq<Fill>
    requires FrameInput(img, prev, settings.blockSize)
    requires i < Columns(img, settings.blockSize) && j < Rows(img, settings.blockSize)
  {
    if BlockMoves(img, prev, settings, i, j) then [FillFor(img, prev, settings, i, j)] else []
  }

  /** Fills drawn for the first n blocks of grid row j, left to right. */
  function RowFills(img: Image, prev: Option<Buffer>, settings: Settings, j: nat, n: nat): seq<Fill>
    requires FrameInput(img, prev, settings.blockSize)
    requires n <= Columns(img, settings.blockSize) && j < Rows(img, settings.blockSize)
    decreases n
  {
    if n == 0 then []
    else RowFills(img, prev, settings, j, n - 1) + BlockFill(img, prev, settings, n - 1, j)
  }

  /** Fills drawn for the first m grid rows, top to bottom. */
  function GridFills(img: Image, prev: Option<Buffer>, settings: Settings, m: nat): seq<Fill>
    requires FrameInput(img, prev, settings.blockSize)
    requires m <= Rows(img, settings.blockSize)
    decreases m
  {
    if m == 0 then []
    else GridFills(img, prev, settings, m - 1)
         + RowFills(img, prev, settings, m - 1, Columns(img, settings.blockSize))
  }

  /** The canvas after one frame: cleared to a grey shade, then the fills. */
  datatype Output = Output(background: real, fills: seq<Fill>)

  /** `background(20)` in colour mode, `background(40)` in grey mode. */
  function Background(isColorMode: bool): real {
    if isColorMode then 20.0 else 40.0
  }

  /** One frame: what is drawn, and what `prevPixels` holds afterwards. */
  datatype Step = Step(output: Output, prevPixels: Option<Buffer>)

  /** The frame step: clear, fill every moving block in row-major order, then
      copy the current buffer into `prevPixels` unless it is null. */
  function FrameStep(img: Image, prev: Option<Buffer>, settings: Settings): (r: Step)
    requires FrameInput(img, prev, settings.blockSize)
    ensures r.output.background == Background(settings.isColorMode)
    ensures r.prevPixels.Some? <==> prev.Some?
    ensures r.prevPixels.Some? ==> r.prevPixels.value == img.data && Sized(r.prevPixels.value, img.width, img.height)
  {
    var fills := GridFills(img, prev, settings, Rows(img, settings.blockSize));
    Step(Output(Background(settings.isColorMode), fills),
         if prev.Some? then Some(img.data) else None)
  }

  /** The colour the canvas shows at (px, py): the last fill painted over it,
      or the background. */
  function PixelColour(out: Output, px: nat, py: nat): Colour
    decreases |out.fills|
  {
    if out.fills == [] then Grey(out.background)
    else
      var last := out.fills[|out.fills| - 1];
      if Covers(last.block, px, py) then last.colour
      else PixelColour(Output(out.background, out.fills[..|out.fills| - 1]), px, py)
  }

  /** The set of grid positions (i, j) whose block is marked as motion. */
  function MotionBlocks(img: Image, prev: Option<Buffer>, settings: Settings): set<(nat, nat)>
    requires FrameInput(img, prev, settings.blockSize)
  {
    var bs := settings.blockSize;
    set i: nat, j: nat | i < Columns(img, bs) && j < Rows(img, bs) && BlockMoves(img, prev, settings, i, j)
      :: (i, j)
  }
}

=== FILE: mosaic_draw.dfy ===
/** The block loops of `draw()` as written: a row-major walk over block
    origins, a pixel scan inside each block, and the fill of moving blocks.
    Each method is proved to compute the functional frame step. */
module MosaicDraw {

  import opened Pixels
  import opened Grid
  import opened Config
  import opened Mosaic
  import opened Arith

  /** The innermost loop: scan the in-bounds part of one block row (row py,
      from column x), adding to the running flag and totals of the block. */
  method ScanRow(img: Image, prev: Option<Buffer>, bs: nat, x: nat, py: nat, threshold: real,
                 motion0: bool, totalR0: int, totalG0: int, totalB0: int, count0: nat)
    returns (motionDetected: bool, totalR: int, totalG: int, totalB: int, pixelCount: nat)
    requires FrameInput(img, prev, bs)
    requires x < img.width && py < img.height
    ensures var n := Extent(img.width, bs, x);
      && x + n <= img.width
      && motionDetected == (motion0 || (prev.Some? && RowMotion(img, prev.value, x, py, n, threshold)))
      && totalR == totalR0 + RowSum(img, x, py, n, 0)
      && totalG == totalG0 + RowSum(img, x, py, n, 1)
      && totalB == totalB0 + RowSum(img, x, py, n, 2)
      && pixelCount == count0 + n
  {
    ghost var n := Extent(img.width, bs, x);
    motionDetected, totalR, totalG, totalB, pixelCount := motion0, totalR0, totalG0, totalB0, count0;
    var dx := 0;
    while dx < bs && x + dx < img.width
      invariant dx <= n
      invariant motionDetected == (motion0 || (prev.Some? && RowMotion(img, prev.value, x, py, dx, threshold)))
      invariant totalR == totalR0 + RowSum(img, x, py, dx, 0)
      invariant totalG == totalG0 + RowSum(img, x, py, dx, 1)
      invariant totalB == totalB0 + RowSum(img, x, py, dx, 2)
      invariant pixelCount == count0 + dx
    {
      var px := x + dx;
      OffsetInBounds(img.width, img.height, px, py);
      var idx := (py * img.width + px) * 4;
      var r: int, g: int, b: int := img.data[idx], img.data[idx + 1], img.data[idx + 2];
      if prev.Some? {
        var p := prev.value;
        var diffR, diffG, diffB := Abs(r - p[idx]), Abs(g - p[idx + 1]), Abs(b - p[idx + 2]);
        if (diffR + diffG + diffB) as real / 3.0 > threshold {
          motionDetected := true;
        }
      }
      totalR, totalG, totalB := totalR + r, totalG + g, totalB + b;
      pixelCount := pixelCount + 1;
      dx := dx + 1;
    }
  }

  /** The two inner loops: scan the block whose origin is (x, y), comparing
      each pixel with the previous buffer when there is one, and totalling
      R, G and B over the in-bounds pixels. */
  method ScanBlock(img: Image, prev: Option<Buffer>, bs: nat, x: nat, y: nat, threshold: real)
    returns (motionDetected: bool, totalR: int, totalG: int, totalB: int, pixelCount: nat)
    requires FrameInput(img, prev, bs)
    requires x < img.width && y < img.height
    ensures var b := Block(x, y, Extent(img.width, bs, x), Extent(img.height, bs, y));
      && InFrame(img, b)
      && Scan(motionDetected, totalR, totalG, totalB, pixelCount) == ScanOf(img, prev, b, threshold)
  {
    ghost var b := Block(x, y, Extent(img.width, bs, x), Extent(img.height, bs, y));
    motionDetected := false;
    totalR, totalG, totalB := 0, 0, 0;
    pixelCount := 0;
    var dy := 0;
    while dy < bs && y + dy < img.height
      invariant dy <= b.h
      invariant totalR == RectSum(img, b, dy, 0)
      invariant totalG == RectSum(img, b, dy, 1)
      invariant totalB == RectSum(img, b, dy, 2)
      invariant pixelCount == RectCount(b, dy)
      invariant motionDetected == (prev.Some? && RectMotion(img, prev.value, b, dy, threshold))
    {
      motionDetected, totalR, totalG, totalB, pixelCount :=
        ScanRow(img, prev, bs, x, y + dy, threshold, motionDetected, totalR, totalG, totalB, pixelCount);
      dy := dy + 1;
    }
  }

  /** The body of the block loop for the block at (x, y), which is block
      (i, j) of the grid: scan it and, if motion was detected, fill its
      footprint with the mean colour or with the luma of the mean. The
      `pixelCount > 0` guard never fails, so the block is drawn exactly when
      it moves. */
  method DrawBlock(img: Image, prev: Option<Buffer>, settings: Settings, threshold: real,
                   x: nat, y: nat, ghost i: nat, ghost j: nat)
    returns (drawn: seq<Fill>)
    requires FrameInput(img, prev, settings.blockSize) && threshold == Threshold(settings)
    requires i < Columns(img, settings.blockSize) && j < Rows(img, settings.blockSize)
    requires x == i * settings.blockSize && y == j * settings.blockSize
    ensures drawn == if BlockMoves(img, prev, settings, i, j) then [FillFor(img, prev, settings, i, j)] else []
  {
    var bs := settings.blockSize;
    VisitedOrigin(img.width, bs, i);
    VisitedOrigin(img.height, bs, j);
    var motionDetected, totalR, totalG, totalB, pixelCount := ScanBlock(img, prev, bs, x, y, threshold);
    ScanCountPositive(img, prev, settings, i, j);
    drawn := [];
    if motionDetected && pixelCount > 0 {
      var n := pixelCount as real;
      var avgR, avgG, avgB := totalR as real / n, totalG as real / n, totalB as real / n;
      var colour := if settings.isColorMode then Rgb(avgR, avgG, avgB)
                    else Grey(0.299 * avgR + 0.587 * avgG + 0.114 * avgB);
      drawn := [Fill(Block(x, y, Extent(img.width, bs, x), Extent(img.height, bs, y)), colour)];
    }
  }

  /** The loop over the blocks of one grid row, whose origins have y
      coordinate y: the fills of that row, left to right. */
  method DrawRow(img: Image, prev: Option<Buffer>, settings: Settings, threshold: real,
                 y: nat, ghost j: nat)
    returns (drawn: seq<Fill>)
    requires FrameInput(img, prev, settings.blockSize) && threshold == Threshold(settings)
    requires j < Rows(img, settings.blockSize) && y == j * settings.blockSize
    ensures drawn == RowFills(img, prev, settings, j, Columns(img, settings.blockSize))
  {
    var bs := settings.blockSize;
    ghost var cols := Columns(img, bs);
    drawn := [];
    var x := 0;
    ghost var i := 0;
    while x < img.width
      invariant x == i * bs && i <= cols
      invariant drawn == RowFills(img, prev, settings, j, i)
    {
      VisitedOrigin(img.width, bs, i);
      var fill := DrawBlock(img, prev, settings, threshold, x, y, i, j);
      drawn := drawn + fill;
      MulSucc(i, bs);
      x := x + bs;
      i := i + 1;
    }
    VisitedOrigin(img.width, bs, i);
  }

  /** The block loops of `draw()`: clear to the background shade, walk the
      grid rows top to bottom, then copy the current buffer into
      `prevPixels` when it is not null. */
  method DrawFrame(img: Image, prev: Option<Buffer>, settings: Settings)
    returns (out: Output, prevPixels: Option<Buffer>)
    requires FrameInput(img, prev, settings.blockSize)
    ensures Step(out, prevPixels) == FrameStep(img, prev, settings)
  {
    var bs := settings.blockSize;
    var threshold := settings.sensitivity * 255.0;
    var background := if settings.isColorMode then 20.0 else 40.0;
    ghost var rows := Rows(img, bs);
    var fills: seq<Fill> := [];
    var y := 0;
    ghost var j := 0;
    while y < img.height
      invariant y == j * bs && j <= rows
      invariant fills == GridFills(img, prev, settings, j)
    {
      VisitedOrigin(img.height, bs, j);
      var drawn := DrawRow(img, prev, settings, threshold, y, j);
      fills := fills + drawn;
      MulSucc(j, bs);
      y := y + bs;
      j := j + 1;
    }
    VisitedOrigin(img.height, bs, j);
    out := Output(background, fills);
    prevPixels := if prev.Some? then Some(img.data) else None;
  }
}

=== FILE: mosaic_props.dfy ===
/** Properties of the frame step: what the motion flag means, which blocks are
    filled and with what colour, what the canvas shows, and how detection
    depends on the sensitivity. */
module MosaicProps {

  import opened Pixels
  import opened Grid
  import opened Config
  import opened Mosaic
  import opened Arith
  import opened Seqs

  /** The row flag holds exactly when some pixel of the row segment moves. */
  lemma {:induction false} RowMotionExists(img: Image, prev: Buffer, x: nat, py: nat, n: nat, threshold: real)
    requires Comparable(img, prev) && x + n <= img.width && py < img.height
    ensures RowMotion(img, prev, x, py, n, threshold) <==>
      exists px: nat :: x <= px < x + n && PixelMoves(img, prev, px, py, threshold)
  {
    if n > 0 {
      RowMotionExists(img, prev, x, py, n - 1, threshold);
      if PixelMoves(img, prev, x + n - 1, py, threshold) {
        assert exists px: nat :: x <= px < x + n && PixelMoves(img, prev, px, py, threshold);
      }
    }
  }

  /** The accumulated flag holds exactly when some scanned pixel moves: a
      single pixel over the threshold is enough. */
  lemma {:induction false} RectMotionExists(img: Image, prev: Buffer, b: Block, rows: nat, threshold: real)
    requires Comparable(img, prev) && b.x + b.w <= img.width && b.y + rows <= img.height
    ensures RectMotion(img, prev, b, rows, threshold) <==>
      exists px: nat, py: nat :: b.x <= px < b.x + b.w && b.y <= py < b.y + rows
                                 && PixelMoves(img, prev, px, py, threshold)
  {
    if rows > 0 {
      RectMotionExists(img, prev, b, rows - 1, threshold);
      RowMotionExists(img, prev, b.x, b.y + rows - 1, b.w, threshold);
      LastRowSplit(img, prev, b, rows, b.y + rows - 1, threshold);
    }
  }

  /** A moving pixel among the first `rows` rows lies in the first rows - 1
      or in the last of them. */
  lemma LastRowSplit(img: Image, prev: Buffer, b: Block, rows: nat, last: nat, threshold: real)
    requires Comparable(img, prev) && b.x + b.w <= img.width && b.y + rows <= img.height
    requires rows > 0 && b.y + rows == last + 1
    ensures (exists px: nat, py: nat :: b.x <= px < b.x + b.w && b.y <= py < b.y + rows
                                        && PixelMoves(img, prev, px, py, threshold))
      <==> (|| (exists px: nat, py: nat :: b.x <= px < b.x + b.w && b.y <= py < last
                                           && PixelMoves(img, prev, px, py, threshold))
            || (exists px: nat :: b.x <= px < b.x + b.w
                                  && PixelMoves(img, prev, px, last, threshold)))
  {
    forall px: nat, py: nat | b.x <= px < b.x + b.w && b.y <= py < b.y + rows
                              && PixelMoves(img, prev, px, py, threshold)
      ensures || (exists px: nat, py: nat :: b.x <= px < b.x + b.w && b.y <= py < last
                                              && PixelMoves(img, prev, px, py, threshold))
              || (exists px: nat :: b.x <= px < b.x + b.w
                                     && PixelMoves(img, prev, px, last, threshold))
    {
      if py == last {
        assert b.x <= px < b.x + b.w && PixelMoves(img, prev, px, last, threshold);
      }
    }
    forall px: nat | b.x <= px < b.x + b.w && PixelMoves(img, prev, px, last, threshold)
      ensures exists px: nat, py: nat :: b.x <= px < b.x + b.w && b.y <= py < b.y + rows
                                         && PixelMoves(img, prev, px, py, threshold)
    {
      assert b.y <= last < b.y + rows;
    }
  }

  /** Motion flag: block (i, j) is marked exactly when there is a previous
      buffer and some in-bounds pixel of the block moves. */
  lemma BlockMovesIff(img: Image, prev: Option<Buffer>, settings: Settings, i: nat, j: nat)
    requires FrameInput(img, prev, settings.blockSize)
    requires i < Columns(img, settings.blockSize) && j < Rows(img, settings.blockSize)
    ensures BlockMoves(img, prev, settings, i, j) <==>
      prev.Some? && exists px: nat, py: nat ::
        px < img.width && py < img.height
        && Covers(GridBlock(img, settings.blockSize, i, j), px, py)
        && PixelMoves(img, prev.value, px, py, Threshold(settings))
  {
    var b := GridBlock(img, settings.blockSize, i, j);
    BlockInBounds(img.width, img.height, settings.blockSize, i, j);
    if prev.Some? {
      RectMotionExists(img, prev.value, b, b.h, Threshold(settings));
    }
  }

  /** A single moving pixel marks the block that contains it. */
  lemma SingleOutlier(img: Image, prev: Buffer, settings: Settings, px: nat, py: nat)
    requires FrameInput(img, Some(prev), settings.blockSize)
    requires px < img.width && py < img.height
    requires PixelMoves(img, prev, px, py, Threshold(settings))
    ensures (px / settings.blockSize, py / settings.blockSize) in MotionBlocks(img, Some(prev), settings)
  {
    var bs := settings.blockSize;
    Partition(img.width, img.height, bs, px, py);
    BlockMovesIff(img, Some(prev), settings, px / bs, py / bs);
  }

  /** Raising the sensitivity never marks an extra block: the blocks detected
      at the higher threshold are among those detected at the lower one. */
  lemma MonotoneInSensitivity(img: Image, prev: Option<Buffer>, lo: Settings, hi: Settings)
    requires FrameInput(img, prev, lo.blockSize)
    requires hi.blockSize == lo.blockSize && lo.sensitivity <= hi.sensitivity
    ensures MotionBlocks(img, prev, hi) <= MotionBlocks(img, prev, lo)
  {
    var bs := lo.blockSize;
    forall ij | ij in MotionBlocks(img, prev, hi)
      ensures ij in MotionBlocks(img, prev, lo)
    {
      var (i, j) := ij;
      BlockMovesIff(img, prev, hi, i, j);
      BlockMovesIff(img, prev, lo, i, j);
      var px: nat, py: nat :| px < img.width && py < img.height
        && Covers(GridBlock(img, bs, i, j), px, py)
        && PixelMoves(img, prev.value, px, py, Threshold(hi));
      assert PixelMoves(img, prev.value, px, py, Threshold(lo));
    }
  }

  /** With sensitivity k / 100 the test can be done in integers. */
  lemma IntegerThreshold(img: Image, prev: Buffer, px: nat, py: nat, k: nat, settings: Settings)
    requires Comparable(img, prev) && px < img.width && py < img.height
    requires settings.sensitivity == k as real / 100.0
    ensures PixelMoves(img, prev, px, py, Threshold(settings)) <==> 100 * PixelDiff(img, prev, px, py) > 765 * k
  {
    var d := PixelDiff(img, prev, px, py) as real;
    assert d / 3.0 > k as real / 100.0 * 255.0 <==> 100.0 * d > 765.0 * k as real;
  }

  /** The fills of the first n blocks of grid row j, one entry per block. */
  function BlockList(img: Image, prev: Option<Buffer>, settings: Settings, j: nat, n: nat): (r: seq<seq<Fill>>)
    requires FrameInput(img, prev, settings.blockSize)
    requires n <= Columns(img, settings.blockSize) && j < Rows(img, settings.blockSize)
    ensures |r| == n && forall i :: 0 <= i < n ==> r[i] == BlockFill(img, prev, settings, i, j)
    decreases n
  {
    if n == 0 then [] else BlockList(img, prev, settings, j, n - 1) + [BlockFill(img, prev, settings, n - 1, j)]
  }

  /** Joined end to end, the per-block fills are what the row loop draws. */
  lemma {:induction false} BlockListJoin(img: Image, prev: Option<Buffer>, settings: Settings, j: nat, n: nat)
    requires FrameInput(img, prev, settings.blockSize)
    requires n <= Columns(img, settings.blockSize) && j < Rows(img, settings.blockSize)
    ensures Flatten(BlockList(img, prev, settings, j, n)) == RowFills(img, prev, settings, j, n)
  {
    if n > 0 {
      BlockListJoin(img, prev, settings, j, n - 1);
      FlattenSnoc(BlockList(img, prev, settings, j, n - 1), BlockFill(img, prev, settings, n - 1, j));
    }
  }

  /** The fills of the first m grid rows, one entry per row. */
  function RowList(img: Image, prev: Option<Buffer>, settings: Settings, m: nat): (r: seq<seq<Fill>>)
    requires FrameInput(img, prev, settings.blockSize)
    requires m <= Rows(img, settings.blockSize)
    ensures |r| == m && forall j :: 0 <= j < m ==>
      r[j] == RowFills(img, prev, settings, j, Columns(img, settings.blockSize))
    decreases m
  {
    if m == 0 then []
    else RowList(img, prev, settings, m - 1) + [RowFills(img, prev, settings, m - 1, Columns(img, settings.blockSize))]
  }

  /** Joined end to end, the per-row fills are what the frame's loops draw. */
  lemma {:induction false} RowListJoin(img: Image, prev: Option<Buffer>, settings: Settings, m: nat)
    requires FrameInput(img, prev, settings.blockSize)
    requires m <= Rows(img, settings.blockSize)
    ensures Flatten(RowList(img, prev, settings, m)) == GridFills(img, prev, settings, m)
  {
    if m > 0 {
      RowListJoin(img, prev, settings, m - 1);
      FlattenSnoc(RowList(img, prev, settings, m - 1),
                  RowFills(img, prev, settings, m - 1, Columns(img, settings.blockSize)));
    }
  }

  /** A fill is drawn in the first n blocks of row j exactly when it is the
      fill of one of those blocks and that block moves. */
  lemma RowFillsMembers(img: Image, prev: Option<Buffer>, settings: Settings, j: nat, n: nat, f: Fill)
    requires FrameInput(img, prev, settings.blockSize)
    requires n <= Columns(img, settings.blockSize) && j < Rows(img, settings.blockSize)
    ensures f in RowFills(img, prev, settings, j, n) <==>
      exists i: nat :: i < n && BlockMoves(img, prev, settings, i, j) && f == FillFor(img, prev, settings, i, j)
  {
    var r := BlockList(img, prev, settings, j, n);
    BlockListJoin(img, prev, settings, j, n);
    FlattenMembers(r, f);
    if f in RowFills(img, prev, settings, j, n) {
      var i :| 0 <= i < n && f in r[i];
      assert i < n && BlockMoves(img, prev, settings, i, j) && f == FillFor(img, prev, settings, i, j);
    }
    if exists i: nat :: i < n && BlockMoves(img, prev, settings, i, j) && f == FillFor(img, prev, settings, i, j) {
      var i: nat :| i < n && BlockMoves(img, prev, settings, i, j) && f == FillFor(img, prev, settings, i, j);
      assert f in r[i];
    }
  }

  /** The frame's fills are exactly the fills of the moving blocks. */
  lemma FillsAreMotionBlocks(img: Image, prev: Option<Buffer>, settings: Settings, f: Fill)
    requires FrameInput(img, prev, settings.blockSize)
    ensures f in FrameStep(img, prev, settings).output.fills <==>
      exists i: nat, j: nat :: i < Columns(img, settings.blockSize) && j < Rows(img, settings.blockSize)
        && BlockMoves(img, prev, settings, i, j) && f == FillFor(img, prev, settings, i, j)
  {
    var cols, rows := Columns(img, settings.blockSize), Rows(img, settings.blockSize);
    var r := RowList(img, prev, settings, rows);
    RowListJoin(img, prev, settings, rows);
    FlattenMembers(r, f);
    if f in FrameStep(img, prev, settings).output.fills {
      var j :| 0 <= j < rows && f in r[j];
      RowFillsMembers(img, prev, settings, j, cols, f);
      var i: nat :| i < cols && BlockMoves(img, prev, settings, i, j) && f == FillFor(img, prev, settings, i, j);
    }
    if exists i: nat, j: nat :: i < cols && j < rows
         && BlockMoves(img, prev, settings, i, j) && f == FillFor(img, prev, settings, i, j) {
      var i: nat, j: nat :| i < cols && j < rows
        && BlockMoves(img, prev, settings, i, j) && f == FillFor(img, prev, settings, i, j);
      RowFillsMembers(img, prev, settings, j, cols, f);
      assert f in r[j];
    }
  }

  /** A row none of whose first n blocks moves draws nothing. */
  lemma RowFillsEmpty(img: Image, prev: Option<Buffer>, settings: Settings, j: nat, n: nat)
    requires FrameInput(img, prev, settings.blockSize)
    requires n <= Columns(img, settings.blockSize) && j < Rows(img, settings.blockSize)
    requires forall i: nat | i < n :: !BlockMoves(img, prev, settings, i, j)
    ensures RowFills(img, prev, settings, j, n) == []
  {
    var r := BlockList(img, prev, settings, j, n);
    assert forall i | 0 <= i < n :: r[i] == [];
    BlockListJoin(img, prev, settings, j, n);
    FlattenEmpty(r);
  }

  /** Grid rows none of whose blocks moves draw nothing. */
  lemma GridFillsEmpty(img: Image, prev: Option<Buffer>, settings: Settings, m: nat)
    requires FrameInput(img, prev, settings.blockSize)
    requires m <= Rows(img, settings.blockSize)
    requires forall i: nat, j: nat | i < Columns(img, settings.blockSize) && j < m ::
      !BlockMoves(img, prev, settings, i, j)
    ensures GridFills(img, prev, settings, m) == []
  {
    var r := RowList(img, prev, settings, m);
    forall j | 0 <= j < m
      ensures r[j] == []
    {
      RowFillsEmpty(img, prev, settings, j, Columns(img, settings.blockSize));
    }
    RowListJoin(img, prev, settings, m);
    FlattenEmpty(r);
  }

  /** No block moves, so nothing is filled. */
  lemma NoMotionNoFills(img: Image, prev: Option<Buffer>, settings: Settings)
    requires FrameInput(img, prev, settings.blockSize)
    requires MotionBlocks(img, prev, settings) == {}
    ensures FrameStep(img, prev, settings).output.fills == []
  {
    var bs := settings.blockSize;
    forall i: nat, j: nat | i < Columns(img, bs) && j < Rows(img, bs)
      ensures !BlockMoves(img, prev, settings, i, j)
    {
      assert (i, j) !in MotionBlocks(img, prev, settings);
    }
    GridFillsEmpty(img, prev, settings, Rows(img, bs));
  }

  /** Without a previous buffer nothing is detected or drawn and `prevPixels`
      stays null: the current frame does not seed it. */
  lemma ColdStart(img: Image, settings: Settings)
    requires FrameInput(img, None, settings.blockSize)
    ensures MotionBlocks(img, None, settings) == {}
    ensures FrameStep(img, None, settings).output == Output(Background(settings.isColorMode), [])
    ensures FrameStep(img, None, settings).prevPixels == None
  {
    NoMotionNoFills(img, None, settings);
  }

  /** Frames equal on R, G and B: no block moves and nothing is filled. */
  lemma IdenticalFrames(img: Image, prev: Buffer, settings: Settings)
    requires FrameInput(img, Some(prev), settings.blockSize)
    requires SameColour(img.data, prev) && settings.sensitivity >= 0.0
    ensures MotionBlocks(img, Some(prev), settings) == {}
    ensures FrameStep(img, Some(prev), settings).output == Output(Background(settings.isColorMode), [])
  {
    forall px: nat, py: nat | px < img.width && py < img.height
      ensures !PixelMoves(img, prev, px, py, Threshold(settings))
    {
      SameColourSamples(img.data, prev, img.width, img.height, px, py, 0);
      SameColourSamples(img.data, prev, img.width, img.height, px, py, 1);
      SameColourSamples(img.data, prev, img.width, img.height, px, py, 2);
      assert PixelDiff(img, prev, px, py) == 0;
    }
    var bs := settings.blockSize;
    forall i: nat, j: nat | i < Columns(img, bs) && j < Rows(img, bs)
      ensures !BlockMoves(img, Some(prev), settings, i, j)
    {
      BlockMovesIff(img, Some(prev), settings, i, j);
    }
    NoMotionNoFills(img, Some(prev), settings);
  }

  /** If every fill over (px, py) is g, the pixel shows g's colour when g was
      drawn and the background otherwise. */
  lemma {:induction false} PaintedBy(out: Output, px: nat, py: nat, g: Fill)
    requires Covers(g.block, px, py)
    requires forall f :: f in out.fills && Covers(f.block, px, py) ==> f == g
    ensures PixelColour(out, px, py) == if g in out.fills then g.colour else Grey(out.background)
    decreases |out.fills|
  {
    if out.fills != [] {
      var n := |out.fills|;
      var rest := Output(out.background, out.fills[..n - 1]);
      assert out.fills == rest.fills + [out.fills[n - 1]];
      if !Covers(out.fills[n - 1].block, px, py) {
        PaintedBy(rest, px, py, g);
        assert g in out.fills <==> g in rest.fills;
      }
    }
  }

  /** What the canvas shows: a pixel of block (i, j) takes that block's fill
      colour when the block moved, and the background otherwise. */
  lemma Rendered(img: Image, prev: Option<Buffer>, settings: Settings, px: nat, py: nat, i: nat, j: nat)
    requires FrameInput(img, prev, settings.blockSize)
    requires px < img.width && py < img.height
    requires i < Columns(img, settings.blockSize) && j < Rows(img, settings.blockSize)
    requires Covers(GridBlock(img, settings.blockSize, i, j), px, py)
    ensures PixelColour(FrameStep(img, prev, settings).output, px, py) ==
      if BlockMoves(img, prev, settings, i, j) then FillFor(img, prev, settings, i, j).colour
      else Grey(Background(settings.isColorMode))
  {
    var bs := settings.blockSize;
    var out := FrameStep(img, prev, settings).output;
    var g := FillFor(img, prev, settings, i, j);
    forall f | f in out.fills && Covers(f.block, px, py)
      ensures f == g
    {
      FillsAreMotionBlocks(img, prev, settings, f);
      var i': nat, j': nat :| i' < Columns(img, bs) && j' < Rows(img, bs)
        && BlockMoves(img, prev, settings, i', j') && f == FillFor(img, prev, settings, i', j');
      SameBlock(img, prev, settings, px, py, i, j, i', j');
    }
    PaintedBy(out, px, py, g);
    FillsAreMotionBlocks(img, prev, settings, g);
    if g in out.fills {
      var i': nat, j': nat :| i' < Columns(img, bs) && j' < Rows(img, bs)
        && BlockMoves(img, prev, settings, i', j') && g == FillFor(img, prev, settings, i', j');
      SameBlock(img, prev, settings, px, py, i, j, i', j');
    }
  }

  /** Two grid blocks whose fills cover the same pixel are the same block. */
  lemma SameBlock(img: Image, prev: Option<Buffer>, settings: Settings, px: nat, py: nat,
                  i: nat, j: nat, i': nat, j': nat)
    requires FrameInput(img, prev, settings.blockSize)
    requires px < img.width && py < img.height
    requires i < Columns(img, settings.blockSize) && j < Rows(img, settings.blockSize)
    requires i' < Columns(img, settings.blockSize) && j' < Rows(img, settings.blockSize)
    requires Covers(GridBlock(img, settings.blockSize, i, j), px, py)
    requires Covers(FillFor(img, prev, settings, i', j').block, px, py)
    ensures i == i' && j == j'
  {
    Partition(img.width, img.height, settings.blockSize, px, py);
    assert Covers(BlockAt(img.width, img.height, settings.blockSize, i', j'), px, py);
  }

  /** Identical frames leave the canvas showing only the background. */
  lemma IdenticalFramesShowBackground(img: Image, prev: Buffer, settings: Settings, px: nat, py: nat)
    requires FrameInput(img, Some(prev), settings.blockSize)
    requires SameColour(img.data, prev) && settings.sensitivity >= 0.0
    ensures PixelColour(FrameStep(img, Some(prev), settings).output, px, py) ==
      Grey(if settings.isColorMode then 20.0 else 40.0)
  {
    IdenticalFrames(img, prev, settings);
  }

  lemma {:induction false} RowSumUniform(img: Image, x: nat, py: nat, n: nat, c: nat, v: int)
    requires img.Valid() && x + n <= img.width && py < img.height && c < 3
    requires forall px :: x <= px < x + n ==> Sample(img.data, img.width, img.height, px, py, c) == v
    ensures RowSum(img, x, py, n, c) == n * v
  {
    if n > 0 {
      RowSumUniform(img, x, py, n - 1, c, v);
    }
  }

  lemma {:induction false} RectSumUniform(img: Image, b: Block, rows: nat, c: nat, v: int)
    requires img.Valid() && b.x + b.w <= img.width && b.y + rows <= img.height && c < 3
    requires forall px: nat, py: nat | b.x <= px < b.x + b.w && b.y <= py < b.y + rows ::
      Sample(img.data, img.width, img.height, px, py, c) == v
    ensures RectSum(img, b, rows, c) == (b.w * rows) * v
  {
    if rows > 0 {
      RectSumUniform(img, b, rows - 1, c, v);
      RowSumUniform(img, b.x, b.y + rows - 1, b.w, c, v);
      AddRow(b.w, rows, v);
    }
  }

  /** Whether every in-bounds pixel of block b has colour (r, g, bl). */
  predicate UniformColour(img: Image, b: Block, r: int, g: int, bl: int)
    requires img.Valid()
  {
    forall px: nat, py: nat | Covers(b, px, py) && px < img.width && py < img.height ::
      && Sample(img.data, img.width, img.height, px, py, 0) == r
      && Sample(img.data, img.width, img.height, px, py, 1) == g
      && Sample(img.data, img.width, img.height, px, py, 2) == bl
  }

  /** A block of uniform colour is filled with exactly that colour, or with
      its luma 0.299 R + 0.587 G + 0.114 B in grey mode. */
  lemma UniformBlockFill(img: Image, prev: Option<Buffer>, settings: Settings, i: nat, j: nat, r: int, g: int, bl: int)
    requires FrameInput(img, prev, settings.blockSize)
    requires i < Columns(img, settings.blockSize) && j < Rows(img, settings.blockSize)
    requires UniformColour(img, GridBlock(img, settings.blockSize, i, j), r, g, bl)
    ensures FillFor(img, prev, settings, i, j).colour ==
      if settings.isColorMode then Rgb(r as real, g as real, bl as real)
      else Grey(Luma(r as real, g as real, bl as real))
  {
    var b := GridBlock(img, settings.blockSize, i, j);
    BlockInBounds(img.width, img.height, settings.blockSize, i, j);
    var s := ScanOf(img, prev, b, Threshold(settings));
    assert s.totalR == s.count * r by { RectSumUniform(img, b, b.h, 0, r); }
    assert s.totalG == s.count * g by { RectSumUniform(img, b, b.h, 1, g); }
    assert s.totalB == s.count * bl by { RectSumUniform(img, b, b.h, 2, bl); }
    UniformMean(s, settings.isColorMode, r, g, bl);
  }

  lemma UniformMean(s: Scan, isColorMode: bool, r: int, g: int, bl: int)
    requires s.count > 0
    requires s.totalR == s.count * r && s.totalG == s.count * g && s.totalB == s.count * bl
    ensures BlockColour(s, isColorMode) ==
      if isColorMode then Rgb(r as real, g as real, bl as real)
      else Grey(Luma(r as real, g as real, bl as real))
  {
    var n := s.count as real;
    assert s.totalR as real == n * r as real;
    assert s.totalG as real == n * g as real;
    assert s.totalB as real == n * bl as real;
  }

  lemma {:induction false} RowSumRange(img: Image, x: nat, py: nat, n: nat, c: nat)
    requires img.Valid() && x + n <= img.width && py < img.height && c < 3
    ensures 0 <= RowSum(img, x, py, n, c) <= n * 255
  {
    if n > 0 {
      RowSumRange(img, x, py, n - 1, c);
    }
  }

  lemma {:induction false} RectSumRange(img: Image, b: Block, rows: nat, c: nat)
    requires img.Valid() && b.x + b.w <= img.width && b.y + rows <= img.height && c < 3
    ensures 0 <= RectSum(img, b, rows, c) <= (b.w * rows) * 255
  {
    if rows > 0 {
      RectSumRange(img, b, rows - 1, c);
      RowSumRange(img, b.x, b.y + rows - 1, b.w, c);
      AddRow(b.w, rows, 255);
    }
  }

  predicate InByteRange(v: real) {
    0.0 <= v <= 255.0
  }

  /** Every fill colour is a mean of bytes, so each component (and the luma)
      lies in 0..255. */
  lemma FillColourInRange(img: Image, prev: Option<Buffer>, settings: Settings, i: nat, j: nat)
    requires FrameInput(img, prev, settings.blockSize)
    requires i < Columns(img, settings.blockSize) && j < Rows(img, settings.blockSize)
    ensures match FillFor(img, prev, settings, i, j).colour
      case Rgb(r, g, b) => InByteRange(r) && InByteRange(g) && InByteRange(b)
      case Grey(v) => InByteRange(v)
  {
    var b := GridBlock(img, settings.blockSize, i, j);
    BlockInBounds(img.width, img.height, settings.blockSize, i, j);
    var s := ScanOf(img, prev, b, Threshold(settings));
    RectSumRange(img, b, b.h, 0);
    RectSumRange(img, b, b.h, 1);
    RectSumRange(img, b, b.h, 2);
    ColourInRange(s, settings.isColorMode);
  }

  lemma ColourInRange(s: Scan, isColorMode: bool)
    requires s.count > 0
    requires 0 <= s.totalR <= s.count * 255
    requires 0 <= s.totalG <= s.count * 255
    requires 0 <= s.totalB <= s.count * 255
    ensures match BlockColour(s, isColorMode)
      case Rgb(r, g, b) => InByteRange(r) && InByteRange(g) && InByteRange(b)
      case Grey(v) => InByteRange(v)
  {
    MeanInRange(s.totalR, s.count);
    MeanInRange(s.totalG, s.count);
    MeanInRange(s.totalB, s.count);
  }

  lemma MeanInRange(total: int, n: nat)
    requires n > 0 && 0 <= total <= n * 255
    ensures InByteRange(total as real / n as real)
  {
    assert total as real <= 255.0 * n as real;
  }
}

=== FILE: pixels.dfy ===
/** Flat RGBA pixel buffers as the sketch reads them from `pixels`: row-major,
    four samples (R, G, B, A) per pixel, each sample a clamped byte. */
module Pixels {

  import Arith

  /** One sample of a Uint8ClampedArray. */
  type Byte = b: int | 0 <= b < 256

  /** A flat row-major RGBA buffer. */
  type Buffer = seq<Byte>

  /** Stands in for a JavaScript value that may be `null`. */
  datatype Option<+T> = None | Some(value: T)

  /** The buffer holds exactly `width` x `height` RGBA pixels. */
  predicate Sized(buf: Buffer, width: nat, height: nat) {
    |buf| == width * height * 4
  }

  /** Index of the red sample of pixel (px, py) in a buffer of row length `width`. */
  function Offset(width: nat, px: nat, py: nat): nat {
    (py * width + px) * 4
  }

  /** All four samples of an in-bounds pixel lie inside a sized buffer. */
  lemma OffsetInBounds(width: nat, height: nat, px: nat, py: nat)
    requires px < width && py < height
    ensures Offset(width, px, py) + 3 < width * height * 4
  {
    assert py * width <= (height - 1) * width by {
      Arith.MulLe(py, height - 1, width);
    }
    assert (height - 1) * width == height * width - width;
    assert py * width + px < width * height;
  }

  /** A frame as `loadPixels` exposes it: its size and its flat buffer. */
  datatype Image = Image(width: nat, height: nat, data: Buffer) {
    predicate Valid() {
      Sized(data, width, height)
    }
  }

  /** Sample `c` (0 = R, 1 = G, 2 = B, 3 = A) of pixel (px, py). */
  function Sample(buf: Buffer, width: nat, height: nat, px: nat, py: nat, c: nat): Byte
    requires Sized(buf, width, height) && px < width && py < height && c < 4
  {
    OffsetInBounds(width, height, px, py);
    buf[Offset(width, px, py) + c]
  }

  /** A freshly allocated `Uint8ClampedArray` of length n: every sample is zero. */
  function Zeros(n: nat): (z: Buffer)
    ensures |z| == n
    ensures forall i :: 0 <= i < n ==> z[i] == 0
  {
    seq(n, _ => 0)
  }

  /** The two buffers agree on every R, G and B sample (alpha may differ). */
  predicate SameColour(a: Buffer, b: Buffer) {
    |a| == |b| && forall i :: 0 <= i < |a| && i % 4 < 3 ==> a[i] == b[i]
  }

  /** Two same-coloured sized buffers agree on the R, G, B samples of every pixel. */
  lemma SameColourSamples(a: Buffer, b: Buffer, width: nat, height: nat, px: nat, py: nat, c: nat)
    requires Sized(a, width, height) && SameColour(a, b)
    requires px < width && py < height && c < 3
    ensures Sample(a, width, height, px, py, c) == Sample(b, width, height, px, py, c)
  {
    OffsetInBounds(width, height, px, py);
    var i := Offset(width, px, py) + c;
    assert i % 4 == c;
    assert a[i] == b[i];
  }
}

=== FILE: resize.dfy ===
/** The canvas size chosen when a video's metadata arrives: the video's own
    size, scaled down (aspect ratio kept, each side floored) to fit 1280 x 720. */
module Resize {

  const MaxWidth: nat := 1280
  const MaxHeight: nat := 720

  function Min(a: real, b: real): real {
    if a <= b then a else b
  }

  /** `Math.min(1280 / w, 720 / h)` in exact arithmetic. A zero side divides
      to Infinity in JavaScript, so the other ratio is the minimum. */
  function Scale(w: nat, h: nat): (s: real)
    requires w > MaxWidth || h > MaxHeight
    ensures 0.0 < s < 1.0
    ensures w as real * s <= MaxWidth as real && h as real * s <= MaxHeight as real
  {
    if w == 0 then MaxHeight as real / h as real
    else if h == 0 then MaxWidth as real / w as real
    else Min(MaxWidth as real / w as real, MaxHeight as real / h as real)
  }

  /** The canvas size for a video of intrinsic size w x h. */
  function Downscale(w: nat, h: nat): (r: (nat, nat))
    ensures w <= MaxWidth && h <= MaxHeight ==> r == (w, h)
    ensures r.0 <= MaxWidth && r.1 <= MaxHeight
    ensures r.0 <= w && r.1 <= h
  {
    if w <= MaxWidth && h <= MaxHeight then (w, h)
    else
      var s := Scale(w, h);
      FloorBelow(w as real * s, w);
      FloorBelow(h as real * s, h);
      ((w as real * s).Floor, (h as real * s).Floor)
  }

  lemma FloorBelow(v: real, n: nat)
    requires 0.0 <= v <= n as real
    ensures 0 <= v.Floor <= n
  {
  }

  /** An oversized video is scaled so that its binding side lands exactly on
      the limit: the width becomes 1280 or the height becomes 720. */
  lemma BindingSide(w: nat, h: nat)
    requires w > MaxWidth || h > MaxHeight
    ensures Downscale(w, h).0 == MaxWidth || Downscale(w, h).1 == MaxHeight
  {
    var s := Scale(w, h);
    if w > 0 && s == MaxWidth as real / w as real {
      assert w as real * s == MaxWidth as real;
    } else {
      assert h > 0 && s == MaxHeight as real / h as real;
      assert h as real * s == MaxHeight as real;
    }
  }

  /** Flooring both sides keeps the aspect ratio up to one pixel:
      w' * h and h' * w differ by less than one side of the original. */
  lemma AspectKept(w: nat, h: nat)
    requires w > 0 && h > 0
    ensures var r := Downscale(w, h);
      -(h as int) < r.0 * h - r.1 * w < w
  {
    var r := Downscale(w, h);
    if w > MaxWidth || h > MaxHeight {
      var s := Scale(w, h);
      var a, b := w as real * s, h as real * s;
      assert r.0 == a.Floor && r.1 == b.Floor;
      Regroup(w as real, h as real, s);
      FloorCross(a, b, w, h, r.0, r.1);
    } else {
      assert r.0 == w && r.1 == h;
    }
  }

  lemma FloorCross(a: real, b: real, w: nat, h: nat, x: int, y: int)
    requires w > 0 && h > 0
    requires 0.0 <= a && 0.0 <= b && a * h as real == b * w as real
    requires x == a.Floor && y == b.Floor
    ensures -(h as int) < x * h - y * w < w
  {
    CrossReal(a, b, x as real, y as real, h as real, w as real);
    IntMulReal(x, h);
    IntMulReal(y, w);
  }

  lemma CrossReal(a: real, b: real, fa: real, fb: real, hr: real, wr: real)
    requires hr > 0.0 && wr > 0.0
    requires fa <= a < fa + 1.0 && fb <= b < fb + 1.0
    requires a * hr == b * wr
    ensures -hr < fa * hr - fb * wr < wr
  {
    var p, q := (b - fb) * wr, (a - fa) * hr;
    FractionBounds(b - fb, wr, a - fa, hr, p, q);
    Distribute(a, fa, hr, b, fb, wr);
  }

  lemma IntMulReal(x: int, y: int)
    ensures (x * y) as real == x as real * y as real
  {
  }

  lemma Distribute(a: real, fa: real, h: real, b: real, fb: real, w: real)
    requires a * h == b * w
    ensures fa * h - fb * w == (b - fb) * w - (a - fa) * h
  {
  }

  lemma FractionBounds(d: real, n: real, e: real, m: real, p: real, q: real)
    requires 0.0 <= d < 1.0 && n > 0.0 && 0.0 <= e < 1.0 && m > 0.0
    requires p == d * n && q == e * m
    ensures 0.0 <= p < n && 0.0 <= q < m
  {
    LessOne(d, n);
    LessOne(e, m);
  }

  lemma LessOne(d: real, n: real)
    requires 0.0 <= d < 1.0 && n > 0.0
    ensures 0.0 <= d * n && d * n < n
  {
  }

  lemma Regroup(w: real, h: real, s: real)
    ensures (w * s) * h == (h * s) * w
  {
  }
}

=== FILE: seqs.dfy ===
/** Concatenation of a sequence of sequences, the shape of the output the
    nested block loops build up. */
module Seqs {

  /** The rows of `rows` joined end to end. */
  function Flatten<T>(rows: seq<seq<T>>): seq<T>
    decreases |rows|
  {
    if rows == [] then [] else Flatten(rows[..|rows| - 1]) + rows[|rows| - 1]
  }

  /** Appending one more row appends its elements. */
  lemma FlattenSnoc<T>(rows: seq<seq<T>>, r: seq<T>)
    ensures Flatten(rows + [r]) == Flatten(rows) + r
  {
    assert (rows + [r])[..|rows|] == rows;
  }

  /** An element is in the flattening exactly when it is in one of the rows. */
  lemma {:induction false} FlattenMembers<T>(rows: seq<seq<T>>, x: T)
    ensures x in Flatten(rows) <==> exists j :: 0 <= j < |rows| && x in rows[j]
    decreases |rows|
  {
    if rows != [] {
      var n := |rows|;
      var init := rows[..n - 1];
      FlattenMembers(init, x);
      if x in Flatten(rows) {
        if x in Flatten(init) {
          var j :| 0 <= j < |init| && x in init[j];
          assert x in rows[j];
        } else {
          assert x in rows[n - 1];
        }
      }
      if exists j :: 0 <= j < n && x in rows[j] {
        var j :| 0 <= j < n && x in rows[j];
        if j < n - 1 {
          assert x in init[j];
        }
      }
    }
  }

  /** Rows that are all empty flatten to the empty sequence. */
  lemma {:induction false} FlattenEmpty<T>(rows: seq<seq<T>>)
    requires forall j :: 0 <= j < |rows| ==> rows[j] == []
    ensures Flatten(rows) == []
    decreases |rows|
  {
    if rows != [] {
      var init := rows[..|rows| - 1];
      assert forall j :: 0 <= j < |init| ==> init[j] == rows[j];
      FlattenEmpty(init);
    }
  }
}

=== FILE: session.dfy ===
/** The sketch's session state and the events that change it: opening a
    video, its metadata and playback arriving, each `draw()` tick, the colour
    and play/pause toggles, the sliders, and reset. */
module Session {

  import opened Pixels
  import opened Grid
  import opened Config
  import opened Mosaic
  import opened MosaicProps
  import Resize

  /** The globals the frame step depends on: whether a video element exists,
      `videoLoaded`, `prevPixels`, `settings`, and the canvas size. */
  datatype State = State(
    hasVideo: bool,
    videoLoaded: bool,
    prevPixels: Option<Buffer>,
    settings: Settings,
    width: nat,
    height: nat)

  /** After `setup()`: a 640 x 360 canvas, no video, default settings. */
  const Initial := State(false, false, None, Defaults, 640, 360)

  /** What every reachable state keeps: settings within the slider ranges and
      a previous buffer, when there is one, of the canvas size. */
  predicate Valid(s: State) {
    InRange(s.settings) && (s.prevPixels.Some? ==> Sized(s.prevPixels.value, s.width, s.height))
  }

  /** `processVideoFile`: a file that passed the MP4/WebM type check
      (`accepted`) replaces the video element; any other file changes nothing. */
  function OpenVideo(s: State, accepted: bool): (r: State)
    ensures Valid(s) ==> Valid(r)
    ensures accepted ==> r.hasVideo
    ensures !accepted ==> r == s
    ensures r.prevPixels == s.prevPixels && r.videoLoaded == s.videoLoaded
    ensures r.settings == s.settings && r.width == s.width && r.height == s.height
  {
    if accepted then s.(hasVideo := true) else s
  }

  /** The `loadedmetadata` handler: size the canvas to the video (at most
      1280 x 720) and allocate a zero-filled previous buffer of that size.
      Without a video element the handler fails before changing anything. */
  function MetadataLoaded(s: State, videoWidth: nat, videoHeight: nat): (r: State)
    ensures Valid(s) ==> Valid(r)
    ensures !s.hasVideo ==> r == s
    ensures s.hasVideo ==> r.width <= Resize.MaxWidth && r.height <= Resize.MaxHeight
    ensures s.hasVideo ==> (r.width, r.height) == Resize.Downscale(videoWidth, videoHeight)
    ensures r.settings == s.settings && r.hasVideo == s.hasVideo && r.videoLoaded == s.videoLoaded
    ensures s.hasVideo ==>
      && r.prevPixels.Some? && Sized(r.prevPixels.value, r.width, r.height)
      && forall k :: 0 <= k < |r.prevPixels.value| ==> r.prevPixels.value[k] == 0
  {
    if !s.hasVideo then s
    else
      var (w, h) := Resize.Downscale(videoWidth, videoHeight);
      s.(width := w, height := h, prevPixels := Some(Zeros(w * h * 4)))
  }

  /** The `play()` promise resolving: the video counts as loaded and playing. */
  function PlayStarted(s: State): (r: State)
    ensures Valid(s) ==> Valid(r)
    ensures r.videoLoaded && r.settings.isPlaying
    ensures r.prevPixels == s.prevPixels && r.hasVideo == s.hasVideo
    ensures r.settings.(isPlaying := s.settings.isPlaying) == s.settings
    ensures r.width == s.width && r.height == s.height
  {
    s.(videoLoaded := true, settings := s.settings.(isPlaying := true))
  }

  /** `draw()` returns at once when no video is loaded or playback is paused. */
  predicate Gated(s: State) {
    !s.videoLoaded || !s.hasVideo || !s.settings.isPlaying
  }

  /** One `draw()` call: the state afterwards, and what was drawn (nothing
      when gated, so the canvas keeps its last frame). */
  datatype Tick = Tick(state: State, drawn: Option<Output>)

  /** One `draw()` call on the current frame's buffer, which has the canvas size. */
  function Draw(s: State, frame: Buffer): (r: Tick)
    requires Valid(s) && Sized(frame, s.width, s.height)
    ensures Valid(r.state)
    ensures r.state == s.(prevPixels := r.state.prevPixels)
    ensures Gated(s) <==> r.drawn.None?
  {
    if Gated(s) then Tick(s, None)
    else
      var step := FrameStep(Image(s.width, s.height, frame), s.prevPixels, s.settings);
      Tick(s.(prevPixels := step.prevPixels), Some(step.output))
  }

  /** `toggleColorMode`. */
  function ToggleColorMode(s: State): (r: State)
    ensures Valid(s) ==> Valid(r)
    ensures r.settings.isColorMode == !s.settings.isColorMode
    ensures r.settings.(isColorMode := s.settings.isColorMode) == s.settings
    ensures r.(settings := s.settings) == s
  {
    s.(settings := s.settings.(isColorMode := !s.settings.isColorMode))
  }

  /** `togglePlayPause`: does nothing without a video element. */
  function TogglePlayPause(s: State): (r: State)
    ensures !s.hasVideo ==> r == s
    ensures s.hasVideo ==> r.settings == s.settings.(isPlaying := !s.settings.isPlaying)
    ensures r.(settings := s.settings) == s
  {
    if !s.hasVideo then s
    else s.(settings := s.settings.(isPlaying := !s.settings.isPlaying))
  }

  /** `resetApp`: drop the video, null `prevPixels`, restore the default
      settings; the canvas keeps its size. */
  function Reset(s: State): (r: State)
    ensures Valid(r)
    ensures !r.hasVideo && !r.videoLoaded
    ensures r.width == s.width && r.height == s.height
  {
    State(false, false, None, Defaults, s.width, s.height)
  }

  /** The block-size slider's `input` handler. */
  function SetBlockSize(s: State, value: nat): (r: State)
    ensures r.settings.blockSize == value
    ensures r.settings.(blockSize := s.settings.blockSize) == s.settings
    ensures r.(settings := s.settings) == s
  {
    s.(settings := s.settings.(blockSize := value))
  }

  /** The sensitivity slider's `input` handler: slider value / 100. */
  function SetSensitivity(s: State, value: nat): (r: State)
    ensures r.settings.sensitivity * 100.0 == value as real
    ensures r.settings.(sensitivity := s.settings.sensitivity) == s.settings
    ensures r.(settings := s.settings) == s
  {
    s.(settings := s.settings.(sensitivity := value as real / 100.0))
  }

  /** The setup state is valid, and slider values within the slider ranges
      keep a state valid. */
  lemma SlidersKeepValid(s: State, blockSize: nat, sensitivity: nat)
    requires Valid(s)
    requires 5 <= blockSize <= 50 && 10 <= sensitivity <= 90
    ensures Valid(SetBlockSize(s, blockSize)) && Valid(SetSensitivity(s, sensitivity))
    ensures Valid(Initial)
  {
  }

  /** Toggling the colour mode twice restores the state. */
  lemma ToggleColorModeTwice(s: State)
    ensures ToggleColorMode(ToggleColorMode(s)) == s
  {
  }

  /** Play/pause is an involution and keeps the state valid. */
  lemma TogglePlayPauseSpec(s: State)
    ensures TogglePlayPause(TogglePlayPause(s)) == s
    ensures Valid(s) ==> Valid(TogglePlayPause(s))
  {
  }

  /** Reset forgets everything but the canvas size: two states of the same
      size reset to the same state, which draws nothing. */
  lemma ResetForgets(s: State, t: State, frame: Buffer)
    requires s.width == t.width && s.height == t.height
    requires Sized(frame, s.width, s.height)
    ensures Reset(s) == Reset(t)
    ensures Reset(s).prevPixels == None && Reset(s).settings == Defaults
    ensures Draw(Reset(s), frame) == Tick(Reset(s), None)
  {
  }

  /** What a drawn tick shows: each canvas pixel of grid block (i, j) has
      that block's fill colour if the block moved against `prevPixels`, and
      the background otherwise. */
  lemma DrawRendered(s: State, frame: Buffer, px: nat, py: nat, i: nat, j: nat)
    requires Valid(s) && Sized(frame, s.width, s.height) && !Gated(s)
    requires px < s.width && py < s.height
    requires var img := Image(s.width, s.height, frame);
      && i < Columns(img, s.settings.blockSize) && j < Rows(img, s.settings.blockSize)
      && Covers(GridBlock(img, s.settings.blockSize, i, j), px, py)
    ensures var img := Image(s.width, s.height, frame);
      && Draw(s, frame).drawn.Some?
      && PixelColour(Draw(s, frame).drawn.value, px, py) ==
        if BlockMoves(img, s.prevPixels, s.settings, i, j) then FillFor(img, s.prevPixels, s.settings, i, j).colour
        else Grey(Background(s.settings.isColorMode))
  {
    Rendered(Image(s.width, s.height, frame), s.prevPixels, s.settings, px, py, i, j);
  }

  /** Buffer update: after a drawn frame with a previous buffer, `prevPixels`
      holds the current frame; a null `prevPixels` stays null. */
  lemma DrawUpdatesBuffer(s: State, frame: Buffer)
    requires Valid(s) && Sized(frame, s.width, s.height) && !Gated(s)
    ensures s.prevPixels.Some? ==> Draw(s, frame).state.prevPixels == Some(frame)
    ensures s.prevPixels.None? ==> Draw(s, frame).state.prevPixels == None
  {
  }

  /** The null branch of the frame step is reached when an old video's
      `play()` promise resolves after a reset and a new file: nothing is
      drawn but the background, and `prevPixels` stays null. */
  lemma ColdStartAfterReset(s: State, frame: Buffer)
    requires Sized(frame, s.width, s.height)
    ensures var t := PlayStarted(OpenVideo(Reset(s), true));
      && Valid(t)
      && Draw(t, frame) == Tick(t, Some(Output(Background(true), [])))
  {
    var t := PlayStarted(OpenVideo(Reset(s), true));
    ColdStart(Image(t.width, t.height, frame), t.settings);
  }

  /** Mean channel brightness (R + G + B) / 3 of a pixel of the frame. */
  function Brightness(img: Image, px: nat, py: nat): real
    requires img.Valid() && px < img.width && py < img.height
  {
    var w, h := img.width, img.height;
    (Sample(img.data, w, h, px, py, 0) + Sample(img.data, w, h, px, py, 1)
     + Sample(img.data, w, h, px, py, 2)) as real / 3.0
  }

  /** The first frame after the metadata arrives is compared against the
      zero-filled buffer: a block is filled exactly when one of its pixels
      is brighter than the threshold. */
  lemma FirstFrameAgainstBlack(s: State, videoWidth: nat, videoHeight: nat, frame: Buffer, i: nat, j: nat)
    requires Valid(s) && s.hasVideo
    requires var t := PlayStarted(MetadataLoaded(s, videoWidth, videoHeight));
      Sized(frame, t.width, t.height)
    ensures var t := PlayStarted(MetadataLoaded(s, videoWidth, videoHeight));
      var img := Image(t.width, t.height, frame);
      && Valid(t) && !Gated(t)
      && (i < Columns(img, t.settings.blockSize) && j < Rows(img, t.settings.blockSize) ==>
          (BlockMoves(img, t.prevPixels, t.settings, i, j) <==>
           exists px: nat, py: nat :: px < img.width && py < img.height
             && Covers(GridBlock(img, t.settings.blockSize, i, j), px, py)
             && Brightness(img, px, py) > Threshold(t.settings)))
  {
    var t := PlayStarted(MetadataLoaded(s, videoWidth, videoHeight));
    var img := Image(t.width, t.height, frame);
    var prev := t.prevPixels.value;
    forall px: nat, py: nat | px < img.width && py < img.height
      ensures PixelMoves(img, prev, px, py, Threshold(t.settings)) <==> Brightness(img, px, py) > Threshold(t.settings)
    {
      OffsetInBounds(img.width, img.height, px, py);
      assert PixelDiff(img, prev, px, py) == Sample(frame, img.width, img.height, px, py, 0)
        + Sample(frame, img.width, img.height, px, py, 1) + Sample(frame, img.width, img.height, px, py, 2);
    }
    if i < Columns(img, t.settings.blockSize) && j < Rows(img, t.settings.blockSize) {
      BlockMovesIff(img, t.prevPixels, t.settings, i, j);
    }
  }
}
